=== FILE: README.md ===
# Google Scholar citation tag: a Dafny model

The Jekyll plugin `_plugins/google-scholar-citations.rb` defines the Liquid tag
`google_scholar_citations`. It renders the citation count of one Google Scholar
article and keeps a file cache of counts: an article whose count was recorded
is not fetched again for a day, while a failed fetch is retried at the next
render. This project models the decision logic of that tag and proves
properties of it:

- `CitationCache` (`citation_cache.dfy`): the cache entry `{count, timestamp}`,
  the 24-hour expiry rule with its strict `<` comparison, and `load_cache`.
  `load_cache` falls back to the empty cache when the file is missing or is not
  valid JSON.
- `Render` (`render.dfy`): one `render` call as a pure function. It takes the
  cache, the current second, the article id and an abstract fetch outcome. It
  returns the rendered string, the new cache and whether a fetch was attempted.
  `Attempt` builds the outcome from an abstract HTTP response, the extractor, a
  formatter parameter and an optional save error. `RenderAll` and `Build` chain
  renderings within one build, with the cache loaded once and shared by every
  call, as the class variable `@@citations` is.
- `CitedBy` (`cited_by.dfy`): the extractor of lines 59-66. It chooses the
  `name="description"` meta element, falling back to `og:description`. It then
  finds the leftmost match of `Cited by (\d+[,\d]*)`, deletes the commas and
  reads the digits as a decimal number.
- `Decimal` (`decimal.dfy`): `String#to_i` on digit strings, and a decimal
  rendering used to state the round trip.
- `TagParams` (`tag_params.dfy`): `params.split(" ").map(&:strip)` and the
  first two tokens of the result, which name the scholar-id and article-id
  context variables.
- `Wrappers` (`wrappers.dfy`): `Option` for Ruby's `nil`, and `Result` for a
  value or a raised error's message.

Time is whole seconds (`int`). The clock, the network, the HTML parser, the
number formatter and the file system are parameters or abstract values:

- `now` is the clock.
- `Outcome` or `Response` stands for the HTTP request.
- `Doc` stands for the parsed page.
- `format: nat -> string` stands for `number_to_human`.
- `saveError` stands for the result of `save_cache`.
- `CacheFile` stands for the cache file as read.

The plugin:

- expires each entry on its own after 24 hours;
- makes one fetch attempt per render;
- reads only the `name="description"` meta element, else the `og:description` one;
- renders `"抓取失败: "` followed by the error message when nothing is cached;
- uses the empty cache `{}` in place of an unparsable cache file; the file itself
  is only rewritten by the next `save_cache`, with the in-memory cache.

Three behaviours of the file are worth knowing; the model keeps each as written:

- When `save_cache` raises after line 72 has stored the new count, the count
  stays in the in-memory cache, but the call renders the fallback. Later calls
  in the same build then see the new count (`UnsavedFetch`).
- A description element without a `content` attribute makes `match` be sent to
  `nil`. The resulting `NoMethodError` is rescued like a network error
  (`MissingContentFails`).
- A page without any description element is read as zero citations. The
  formatted zero then replaces the stored count (`NoDescriptionIsZero`).

## Model

| member | source | states |
|---|---|---|
| CitationCache.LoadCache | _plugins/google-scholar-citations.rb:94-101 | a parsed file's cache is returned as it is; a missing or unparsable file gives the empty cache, and only a parsed empty file also gives it |
| Render.Render | _plugins/google-scholar-citations.rb:38-89 | no fetch happens exactly when a fresh entry exists, and then its count is rendered and the cache is unchanged; after a successful fetch the new count is rendered, after a failed or unsaved one the prior count or the prefixed message; a failed attempt leaves the cache as it was; a recording attempt stores its count stamped `now` |
| Render.RenderFrame | _plugins/google-scholar-citations.rb:72-75 | only the requested article's entry can change; no entry is ever removed and no other key appears |
| Render.FreshHit | _plugins/google-scholar-citations.rb:38-42 | an entry younger than 86400 seconds is rendered as stored, with no fetch and the cache unchanged |
| Render.ExpiredOrMissingFetches | _plugins/google-scholar-citations.rb:38-45 | a missing entry, or one 86400 seconds old or older, always leads to a fetch |
| Render.ExpiryBoundary | _plugins/google-scholar-citations.rb:40 | an entry stamped t is served from the cache at t + 86399 and fetched again at t + 86400 |
| Render.SuccessfulFetch | _plugins/google-scholar-citations.rb:72-78 | a successful fetch renders the new count and maps the article to the new count stamped `now`; every other entry is unchanged |
| Render.FailedFetchWithPrior | _plugins/google-scholar-citations.rb:80-86 | a failed fetch renders the prior count, even an expired one, and leaves the cache unchanged |
| Render.FailedFetchWithoutPrior | _plugins/google-scholar-citations.rb:80-88 | with no prior entry, a failed fetch renders `抓取失败: ` followed by the message, and the cache is unchanged |
| Render.UnsavedFetch | _plugins/google-scholar-citations.rb:72-88 | when saving raises, the new count stays in the in-memory cache while the fallback (prior count or error text) is rendered |
| Render.RecordedCountServed | _plugins/google-scholar-citations.rb:38-75 | once an attempt records a count, every rendering of that article less than a day later renders that count without fetching, whatever its fetch would bring |
| Render.Attempt | _plugins/google-scholar-citations.rb:57-82 | the attempt records a count exactly when the page was fetched and the extractor did not raise; the recorded count is the formatted raw count; a request error becomes a failure with its message, and an extraction error a failure with the extractor's message; a save error turns a recording into an unsaved one carrying the save error's message, the message line 82 renders |
| Render.RenderTag | _plugins/google-scholar-citations.rb:31-89 | the whole of `render` from the HTTP response: no fetch exactly on a fresh entry, which is then rendered with the cache unchanged; a request error or a description without `content` renders the fallback and leaves the cache unchanged; an extracted count is formatted and stored stamped `now`, and rendered unless saving raised, in which case the fallback is rendered |
| Render.NoDescriptionIsZero | _plugins/google-scholar-citations.rb:59-78 | a page without any description element records and renders the formatted zero |
| Render.MissingContentFails | _plugins/google-scholar-citations.rb:60-88 | a description element without `content` fails the attempt: the fallback is rendered and the cache is unchanged |
| Render.RenderAll | _plugins/google-scholar-citations.rb:31-42 | a build renders one string per request, and every article cached at the start of the build is still cached at the end |
| Render.Build | _plugins/google-scholar-citations.rb:33 | the cache is loaded once and then shared by every call; everything loaded is still cached at the end of the build |
| Render.UnrequestedUnchanged | _plugins/google-scholar-citations.rb:72 | an article that no request of the build names keeps its entry, or its absence |
| Render.RecordedNotRefetched | _plugins/google-scholar-citations.rb:38-42 | within one day from `start`, an article whose count was recorded at or after `start` is never fetched |
| Render.AtMostOneRecordingFetch | _plugins/google-scholar-citations.rb:38-78 | within any one-day span, an article is fetched at most once after a fetch that recorded a count: later renderings of it are cache hits |
| CitedBy.FindFrom | _plugins/google-scholar-citations.rb:64 | the leftmost position from which `Cited by ` followed by a digit occurs, or none when no such position exists |
| CitedBy.RunEnd | _plugins/google-scholar-citations.rb:64 | the greedy group `\d+[,\d]*` ends at the first character that is neither a digit nor a comma |
| CitedBy.DeleteCommas | _plugins/google-scholar-citations.rb:65 | the result holds no comma and is no longer than the input |
| CitedBy.DeleteCommasConcat | _plugins/google-scholar-citations.rb:65 | deleting commas distributes over concatenation, so the result is determined character by character |
| CitedBy.DeleteCommasNone | _plugins/google-scholar-citations.rb:65 | a string without commas is unchanged |
| CitedBy.DeleteCommasComma | _plugins/google-scholar-citations.rb:65 | a lone comma is deleted; with the two lemmas above, every comma is removed and every other character kept in order |
| CitedBy.DeleteCommasDigits | _plugins/google-scholar-citations.rb:64-65 | deleting the commas from a run of digits and commas leaves only digits, so `to_i` reads all of it |
| CitedBy.CitedByCount | _plugins/google-scholar-citations.rb:59-65 | a text without any `Cited by <digit>` gives 0 |
| CitedBy.CitedByFirstMatch | _plugins/google-scholar-citations.rb:64-65 | the count is the first match's digit-and-comma run with its commas removed, read in base ten; text after the run is ignored |
| CitedBy.CitedByDecompose | _plugins/google-scholar-citations.rb:64 | every text with a match splits into a match-free part, the prefix, the run and the rest, so the value lemma covers every such text |
| CitedBy.CitedByShown | _plugins/google-scholar-citations.rb:64-65 | a number written after `Cited by ` is read back exactly |
| CitedBy.CitedByExample | _plugins/google-scholar-citations.rb:64-65 | `Cited by 1,234 in total` gives 1234 |
| CitedBy.DescriptionMeta | _plugins/google-scholar-citations.rb:60 | the name="description" element when there is one, else the og:description one; none only when both are absent |
| CitedBy.CitationCount | _plugins/google-scholar-citations.rb:59-66 | no element gives 0; an element without `content` raises the nil `match` error; otherwise the count of the chosen element's content |
| CitedBy.DescriptionPrecedence | _plugins/google-scholar-citations.rb:60 | when a name="description" element exists, the og:description element does not affect the count |
| Decimal.ParseShow | _plugins/google-scholar-citations.rb:65 | `to_i` of the decimal rendering of n is n |
| Decimal.ParseDigits | _plugins/google-scholar-citations.rb:65 | `to_i` of a digit string is zero exactly when every digit is 0 |
| TagParams.WordLength | _plugins/google-scholar-citations.rb:26 | the length of the maximal whitespace-free run at the start of a string |
| TagParams.Split | _plugins/google-scholar-citations.rb:26 | every field is non-empty and free of whitespace; there are no fields exactly when the string is all whitespace |
| TagParams.SplitJoin | _plugins/google-scholar-citations.rb:26 | splitting tokens joined by spaces gives the tokens back |
| TagParams.SplitLeadingSpace | _plugins/google-scholar-citations.rb:26 | leading whitespace does not change the split |
| TagParams.SplitToken | _plugins/google-scholar-citations.rb:26 | a token followed by whitespace or by nothing is split off as one field and splitting continues after it, so runs of spaces, tabs and trailing whitespace give no empty fields |
| TagParams.StripLeft | _plugins/google-scholar-citations.rb:26 | the suffix left after removing every leading whitespace or NUL character |
| TagParams.StripRight | _plugins/google-scholar-citations.rb:26 | the prefix left after removing every trailing whitespace or NUL character |
| TagParams.Strip | _plugins/google-scholar-citations.rb:26 | the result is the part of the string between its leading and trailing runs of whitespace and NUL: it is the string's characters, one for one, from the end of the leading run on; everything before it is the leading run and everything after it is whitespace or NUL, so nothing strippable is left at either end; it is empty exactly when the whole string is whitespace or NUL |
| TagParams.StripClean | _plugins/google-scholar-citations.rb:26 | a name with nothing to strip at either end is unchanged |
| TagParams.ParseParams | _plugins/google-scholar-citations.rb:26-28 | the scholar variable is the stripped first field and the article variable the stripped second one; each is nil exactly when the split has too few fields |
| TagParams.ParseParamsNames | _plugins/google-scholar-citations.rb:26-28 | for two names separated by any non-empty whitespace run, with any leading whitespace and anything after a whitespace character following the second, the first name becomes the scholar variable and the second the article variable |
| TagParams.ParseParamsOneName | _plugins/google-scholar-citations.rb:26-28 | a single name with any whitespace around it gives that name as the scholar variable and a nil article variable |

## Left out

- Network, HTML and sleeping (lines 47-57) are replaced by the abstract `Response` / `Outcome`. This covers the random 5.5-7.5 s sleep, the URL, the headers and `URI.open`. The parsed document becomes `Doc`: the first `meta[name="description"]` and the first `meta[property="og:description"]` element, each reduced to its optional `content`.
- `Helpers.number_to_human` (line 69) is the parameter `format`. It is an ActiveSupport call with float rounding that is not part of this model.
- `save_cache` (lines 104-111), `mkdir_p` and JSON serialisation are not modelled. Only a possible error raised while saving is kept, as `saveError` / `Outcome.Unsaved`.
- `load_cache` (lines 94-101) receives the file as a `CacheFile`. The model does not parse JSON. A file that parses to something other than a cache of entries is not modelled, and neither is a read error other than a JSON parse error.
- Render: timestamps are whole seconds, and one `now` serves both the freshness test (line 40) and the new timestamp (line 74). The source subtracts `Time` values as floats, and reads the clock again after the sleep and the request, storing it at ISO 8601 whole-second precision.
- Render: `Time.parse` of a malformed stored timestamp raises outside the `rescue` (line 40). This is not modelled, because entries hold integer timestamps.
- Liquid registration (line 116), `super`, and the `context[...]` lookup of the two variable names (lines 35-36) are not modelled. `Render` receives the article id directly, and the scholar id only matters for the URL, which is abstracted.
- The log lines are not modelled: the error message printed at line 83 and the warning printed at line 99.
- CitedBy.CitationCount: the message of the `NoMethodError` raised when the element has no `content` is fixed to Ruby 3.3's wording. Other Ruby versions word it differently.
- Decimal.ParseDigits: `String#to_i` is modelled only on strings of ASCII digits, the only strings it receives here. Signs, underscores and leading whitespace are not modelled.
- TagParams.ParseParams: `String#strip` removes NUL at both ends, as Ruby 3 does. Older Ruby versions removed only trailing NUL.

=== FILE: citation_cache.dfy ===
/**
 The citation cache: article id to the last formatted count and the second it
 was recorded, with the 24-hour expiry rule and the load-time fallback.
 */
module CitationCache {

  /** One cache record, `{"count" => ..., "timestamp" => ...}`, the timestamp in whole seconds. */
  datatype Entry = Entry(count: string, timestamp: int)

  type Cache = map<string, Entry>

  /** An entry younger than this many seconds is served without fetching (line 19). */
  const ExpirationSeconds: int := 24 * 60 * 60

  /** Line 40: the entry's age at `now` is strictly below the expiry. */
  predicate IsFresh(e: Entry, now: int) {
    now - e.timestamp < ExpirationSeconds
  }

  /** The cache file as `load_cache` finds it. */
  datatype CacheFile =
    | Missing                   // no file at the cache path
    | Unparsable                // the file's text is not valid JSON
    | Parsed(contents: Cache)   // the file holds a cache

  /** Lines 94-101: the file's cache, or the empty cache when there is none to read. */
  function LoadCache(file: CacheFile): (cache: Cache)
    ensures file.Parsed? ==> cache == file.contents
    ensures cache == map[] <==> !file.Parsed? || file.contents == map[]
  {
    match file
    case Missing => map[]
    case Unparsable => map[]
    case Parsed(contents) => contents
  }
}

=== FILE: cited_by.dfy ===
/**
 The citation-count extractor of `render`: pick the page's description
 `<meta>` element, find the first `Cited by N` in its `content` (the pattern
 `Cited by (\d+[,\d]*)`), drop the thousands separators and read the digits
 as a decimal number. No description element, or no match, gives 0.
 */
module CitedBy {
  import opened Wrappers
  import opened Decimal

  /** The literal part of the pattern, nine characters. */
  const Prefix: string := "Cited by "

  /** The characters of the group's tail `[,\d]*`. */
  predicate IsDigitOrComma(c: char) {
    IsDigit(c) || c == ','
  }

  /** The pattern matches starting at position `i` of `s`: the prefix, then at least one digit. */
  predicate MatchAt(s: string, i: nat) {
    i + |Prefix| < |s| && s[i..i + |Prefix|] == Prefix && IsDigit(s[i + |Prefix|])
  }

  predicate NoMatch(s: string) {
    forall i: nat :: i < |s| ==> !MatchAt(s, i)
  }

  /** The leftmost match at or after `from`, as a regular-expression search reports it. */
  function FindFrom(s: string, from: nat): (r: Option<nat>)
    ensures r.Some? ==> from <= r.value && MatchAt(s, r.value)
    ensures r.Some? ==> forall j: nat :: from <= j < r.value ==> !MatchAt(s, j)
    ensures r.None? ==> forall j: nat :: from <= j ==> !MatchAt(s, j)
    decreases |s| - from
  {
    if from >= |s| then None
    else if MatchAt(s, from) then Some(from)
    else FindFrom(s, from + 1)
  }

  /** The end of the greedy run of digits and commas starting at `k`. */
  function RunEnd(s: string, k: nat): (e: nat)
    requires k <= |s|
    ensures k <= e <= |s|
    ensures forall j :: k <= j < e ==> IsDigitOrComma(s[j])
    ensures e == |s| || !IsDigitOrComma(s[e])
    decreases |s| - k
  {
    if k == |s| || !IsDigitOrComma(s[k]) then k else RunEnd(s, k + 1)
  }

  /** `String#delete(",")`: every character except the commas, in order. */
  function DeleteCommas(s: string): (r: string)
    ensures forall i :: 0 <= i < |r| ==> r[i] != ','
    ensures |r| <= |s|
    decreases |s|
  {
    if s == [] then []
    else
      var rest := DeleteCommas(s[1..]);
      assert s == [s[0]] + s[1..];
      if s[0] == ',' then rest else [s[0]] + rest
  }

  /** Deleting commas from a run of digits and commas leaves only digits. */
  lemma {:induction false} DeleteCommasDigits(s: string)
    requires forall i :: 0 <= i < |s| ==> IsDigitOrComma(s[i])
    ensures AllDigits(DeleteCommas(s))
    decreases |s|
  {
    if s != [] {
      DeleteCommasDigits(s[1..]);
    }
  }

  /** A string without commas is left as it is. */
  lemma {:induction false} DeleteCommasNone(s: string)
    requires forall i :: 0 <= i < |s| ==> s[i] != ','
    ensures DeleteCommas(s) == s
    decreases |s|
  {
    if s != [] {
      DeleteCommasNone(s[1..]);
      assert s == [s[0]] + s[1..];
    }
  }

  /**
   Deletion works character by character: it distributes over concatenation,
   so the characters kept are those of the input, in their order.
   */
  lemma {:induction false} DeleteCommasConcat(a: string, b: string)
    ensures DeleteCommas(a + b) == DeleteCommas(a) + DeleteCommas(b)
    decreases |a|
  {
    if a != [] {
      assert (a + b)[1..] == a[1..] + b;
      DeleteCommasConcat(a[1..], b);
    } else {
      assert a + b == b;
    }
  }

  /** A lone comma is deleted; with `DeleteCommasConcat` and `DeleteCommasNone` this pins the function. */
  lemma DeleteCommasComma()
    ensures DeleteCommas(",") == []
  {
    assert ","[1..] == [];
  }

  /** The raw citation count written in a description text (lines 64-65). */
  function CitedByCount(text: string): (n: nat)
    ensures NoMatch(text) ==> n == 0
  {
    match FindFrom(text, 0)
    case None => 0
    case Some(i) =>
      var run := text[i + |Prefix|..RunEnd(text, i + |Prefix|)];
      DeleteCommasDigits(run);
      ParseDigits(DeleteCommas(run))
  }

  /** A `<meta>` element; `content` is absent when the element has no such attribute. */
  datatype Meta = Meta(content: Option<string>)

  /**
   What the extractor sees of the parsed page: the first `meta[name="description"]`
   and the first `meta[property="og:description"]` element, if any.
   */
  datatype Doc = Doc(description: Option<Meta>, ogDescription: Option<Meta>)

  /**
   The message of the `NoMethodError` raised when the chosen element has no
   `content` and `match` is sent to `nil` (Ruby 3.3 wording).
   */
  const NilMatchMessage: string := "undefined method `match' for nil"

  /** The element line 60 chooses: the name="description" one, else the Open Graph one. */
  function DescriptionMeta(doc: Doc): (m: Option<Meta>)
    ensures doc.description.Some? ==> m == doc.description
    ensures doc.description.None? ==> m == doc.ogDescription
    ensures m.None? <==> doc.description.None? && doc.ogDescription.None?
  {
    if doc.description.Some? then doc.description else doc.ogDescription
  }

  /**
   Lines 59-66: the raw count, or the message of the error raised when the
   chosen element has no `content` attribute.
   */
  function CitationCount(doc: Doc): (r: Result<nat, string>)
    ensures DescriptionMeta(doc).None? ==> r == Success(0)
    ensures r.Failure? <==> DescriptionMeta(doc).Some? && DescriptionMeta(doc).value.content.None?
    ensures r.Failure? ==> r.error == NilMatchMessage
    ensures r.Success? && DescriptionMeta(doc).Some? ==>
              r.value == CitedByCount(DescriptionMeta(doc).value.content.value)
  {
    match DescriptionMeta(doc)
    case None => Success(0)
    case Some(meta) =>
      match meta.content
      case None => Failure(NilMatchMessage)
      case Some(text) => Success(CitedByCount(text))
  }

  /** A match that starts inside `pre` lies wholly inside `pre` when `pre` is followed by the prefix. */
  lemma NoMatchBefore(pre: string, rest: string)
    requires NoMatch(pre)
    ensures forall j: nat :: j < |pre| ==> !MatchAt(pre + Prefix + rest, j)
  {
    var s := pre + Prefix + rest;
    forall j: nat | j < |pre|
      ensures !MatchAt(s, j)
    {
      if j + |Prefix| < |pre| {
        assert s[j..j + |Prefix|] == pre[j..j + |Prefix|];
        assert s[j + |Prefix|] == pre[j + |Prefix|];
        assert !MatchAt(pre, j);
      } else {
        assert s[j + |Prefix|] == Prefix[j + |Prefix| - |pre|];
      }
    }
  }

  /**
   The extractor's value: in a text whose first `Cited by <digit>` is followed by the
   digit-and-comma run `d` (ended by the end of text or another character), the
   count is `d` with its commas removed, read in base ten; what follows is ignored.
   */
  lemma CitedByFirstMatch(pre: string, d: string, post: string)
    requires NoMatch(pre)
    requires |d| > 0 && IsDigit(d[0])
    requires forall i :: 0 <= i < |d| ==> IsDigitOrComma(d[i])
    requires post == [] || !IsDigitOrComma(post[0])
    ensures AllDigits(DeleteCommas(d))
    ensures CitedByCount(pre + Prefix + d + post) == ParseDigits(DeleteCommas(d))
  {
    DeleteCommasDigits(d);
    var s := pre + Prefix + d + post;
    assert s == pre + Prefix + (d + post);
    NoMatchBefore(pre, d + post);
    var start := |pre| + |Prefix|;
    assert s[|pre|..start] == Prefix;
    assert MatchAt(s, |pre|);
    var r := FindFrom(s, 0);
    assert r == Some(|pre|);
    var e := RunEnd(s, start);
    assert s[start..start + |d|] == d;
    assert forall j :: start <= j < start + |d| ==> IsDigitOrComma(s[j]);
    assert start + |d| == |s| || s[start + |d|] == post[0];
    assert e == start + |d|;
  }

  /**
   Conversely, every text holding a match has that shape: the part before its
   first match, the digit-and-comma run after the prefix, and the rest.
   */
  lemma CitedByDecompose(text: string) returns (pre: string, d: string, post: string)
    requires !NoMatch(text)
    ensures text == pre + Prefix + d + post
    ensures NoMatch(pre)
    ensures |d| > 0 && IsDigit(d[0])
    ensures forall i :: 0 <= i < |d| ==> IsDigitOrComma(d[i])
    ensures post == [] || !IsDigitOrComma(post[0])
  {
    var i: nat :| i < |text| && MatchAt(text, i);
    var found := FindFrom(text, 0);
    assert found.Some?;
    var m := found.value;
    var start := m + |Prefix|;
    var e := RunEnd(text, start);
    assert e > start by { assert IsDigitOrComma(text[start]); }
    pre, d, post := text[..m], text[start..e], text[e..];
    assert forall k :: 0 <= k < |d| ==> d[k] == text[start + k];
    assert text[m..start] == Prefix;
    SplitFour(text, m, start, e);
    NoMatchInPrefix(text, m);
  }

  /** Cutting a sequence at three ordered positions and gluing the four pieces gives it back. */
  lemma SplitFour(s: string, a: nat, b: nat, c: nat)
    requires a <= b <= c <= |s|
    ensures s == s[..a] + s[a..b] + s[b..c] + s[c..]
  {
    assert s[..b] == s[..a] + s[a..b];
    assert s[..c] == s[..b] + s[b..c];
    assert s == s[..c] + s[c..];
  }

  /** A prefix of `text` that ends before its first match holds no match. */
  lemma NoMatchInPrefix(text: string, m: nat)
    requires m <= |text|
    requires forall j: nat :: j < m ==> !MatchAt(text, j)
    ensures NoMatch(text[..m])
  {
    var pre := text[..m];
    forall j: nat | j < |pre|
      ensures !MatchAt(pre, j)
    {
      assert !MatchAt(text, j);
      if j + |Prefix| < |pre| {
        assert pre[j..j + |Prefix|] == text[j..j + |Prefix|];
        assert pre[j + |Prefix|] == text[j + |Prefix|];
      }
    }
  }

  /** A plain number after `Cited by ` is read back exactly. */
  lemma CitedByShown(pre: string, n: nat, post: string)
    requires NoMatch(pre)
    requires post == [] || !IsDigitOrComma(post[0])
    ensures CitedByCount(pre + Prefix + Show(n) + post) == n
  {
    var d := Show(n);
    CitedByFirstMatch(pre, d, post);
    DeleteCommasNone(d);
    ParseShow(n);
  }

  /** The worked example: `Cited by 1,234` gives 1234. */
  lemma CitedByExample()
    ensures CitedByCount("Cited by 1,234 in total") == 1234
  {
    var d := "1,234";
    CitedByFirstMatch("", d, " in total");
    assert "" + Prefix + d + " in total" == "Cited by 1,234 in total";
    DeleteCommasExample();
    assert ParseDigits(DeleteCommas(d)) == ParseDigits("1234");
    ParseExample();
  }

  lemma DeleteCommasExample()
    ensures DeleteCommas("1,234") == "1234"
  {
    var s := "1,234";
    assert s[0] == '1' && s[1..] == ",234";
    assert ",234"[0] == ',' && ",234"[1..] == "234";
    DeleteCommasNone("234");
    assert DeleteCommas(",234") == "234";
    assert DeleteCommas(s) == ['1'] + DeleteCommas(",234");
  }

  lemma ParseExample()
    ensures AllDigits("1234") && ParseDigits("1234") == 1234
  {
    assert "1234"[..3] == "123";
    assert "123"[..2] == "12";
    assert "12"[..1] == "1";
    assert "1"[..0] == "";
  }

  /** The name="description" element takes precedence: the Open Graph element is then never read. */
  lemma DescriptionPrecedence(meta: Meta, og1: Option<Meta>, og2: Option<Meta>)
    ensures CitationCount(Doc(Some(meta), og1)) == CitationCount(Doc(Some(meta), og2))
  {
  }
}

=== FILE: decimal.dfy ===
/**
 Decimal digit strings: Ruby's `String#to_i` on a string of ASCII digits, and
 the canonical decimal rendering of a natural number used to state round trips.
 */
module Decimal {

  /** An ASCII decimal digit, the class Ruby's `\d` matches. */
  predicate IsDigit(c: char) {
    '0' <= c <= '9'
  }

  predicate AllDigits(s: string) {
    forall i :: 0 <= i < |s| ==> IsDigit(s[i])
  }

  function DigitValue(c: char): (d: nat)
    requires IsDigit(c)
    ensures d < 10
  {
    (c as int) - ('0' as int)
  }

  function DigitChar(d: nat): (c: char)
    requires d < 10
    ensures IsDigit(c) && DigitValue(c) == d
  {
    (('0' as int) + d) as char
  }

  /** `String#to_i` on a digit string: the number it denotes in base ten. */
  function ParseDigits(s: string): (n: nat)
    requires AllDigits(s)
    ensures n == 0 <==> forall i :: 0 <= i < |s| ==> s[i] == '0'
    decreases |s|
  {
    if |s| == 0 then 0 else ParseDigits(s[..|s| - 1]) * 10 + DigitValue(s[|s| - 1])
  }

  /** The shortest decimal rendering of `n`. */
  function Show(n: nat): (s: string)
    ensures |s| > 0 && AllDigits(s)
    ensures n > 0 ==> s[0] != '0'
    decreases n
  {
    if n < 10 then [DigitChar(n)] else Show(n / 10) + [DigitChar(n % 10)]
  }

  /** Parsing the rendering of a number gives the number back. */
  lemma {:induction false} ParseShow(n: nat)
    ensures ParseDigits(Show(n)) == n
    decreases n
  {
    if n >= 10 {
      var s := Show(n);
      assert s[..|s| - 1] == Show(n / 10);
      ParseShow(n / 10);
    }
  }
}

=== FILE: render.dfy ===
/**
 The `render` decision (lines 31-90): serve a fresh cached count, otherwise
 attempt a fetch; on success record the new count, on failure fall back to
 the cached count, however old, or to an error string.
 */
module Render {
  import opened Wrappers
  import opened CitationCache
  import opened CitedBy

  /** The text put in front of an error message when nothing is cached (line 82). */
  const FailurePrefix: string := "抓取失败: "

  /** What became of one fetch attempt, the network and file system being abstracted. */
  datatype Outcome =
    | Fetched(count: string)                    // a formatted count was obtained and the cache saved
    | Failed(message: string)                   // an error was raised before the cache was touched
    | Unsaved(count: string, message: string)   // the count was recorded, then saving the file raised
  {
    /** The attempt wrote its count into the in-memory cache (line 72). */
    predicate Stores() {
      Fetched? || Unsaved?
    }
  }

  /** The string the tag renders, the cache after the call, and whether a fetch was attempted. */
  datatype Rendered = Rendered(output: string, cache: Cache, fetched: bool)

  /** Line 86 and 88: the cached count, however old, else the failure text. */
  function Fallback(cache: Cache, id: string, message: string): (s: string)
    ensures id in cache ==> s == cache[id].count
    ensures id !in cache ==> s == FailurePrefix + message
  {
    if id in cache then cache[id].count else FailurePrefix + message
  }

  /**
   One rendering of the tag for article `id` at second `now`. The outcome is
   only consulted when no fresh entry exists, i.e. when a fetch is attempted.
   */
  function Render(cache: Cache, now: int, id: string, outcome: Outcome): (r: Rendered)
    ensures !r.fetched <==> id in cache && IsFresh(cache[id], now)
    ensures !r.fetched ==> r.output == cache[id].count && r.cache == cache
    ensures r.fetched && !outcome.Stores() ==> r.cache == cache
    ensures r.fetched && outcome.Stores() ==> r.cache == cache[id := Entry(outcome.count, now)]
    ensures r.fetched && outcome.Fetched? ==> r.output == outcome.count
    ensures r.fetched && !outcome.Fetched? ==> r.output == Fallback(cache, id, outcome.message)
  {
    if id in cache && IsFresh(cache[id], now) then
      Rendered(cache[id].count, cache, false)
    else
      match outcome
      case Fetched(count) => Rendered(count, cache[id := Entry(count, now)], true)
      case Failed(message) => Rendered(Fallback(cache, id, message), cache, true)
      case Unsaved(count, message) => Rendered(Fallback(cache, id, message), cache[id := Entry(count, now)], true)
  }

  /**
   Nothing but the requested article's entry ever changes, and no entry is
   ever removed.
   */
  lemma RenderFrame(cache: Cache, now: int, id: string, outcome: Outcome)
    ensures var r := Render(cache, now, id, outcome);
      && cache.Keys <= r.cache.Keys
      && (forall k :: k != id ==> (k in r.cache <==> k in cache))
      && (forall k :: k in cache && k != id ==> r.cache[k] == cache[k])
  {
  }

  /** Lines 38-42: a fresh entry is served as is, with no fetch and no change to the cache. */
  lemma FreshHit(cache: Cache, now: int, id: string, outcome: Outcome)
    requires id in cache && now - cache[id].timestamp < 86400
    ensures Render(cache, now, id, outcome) == Rendered(cache[id].count, cache, false)
  {
  }

  /** Lines 19 and 40: an entry a full day old or older, or no entry, always leads to a fetch. */
  lemma ExpiredOrMissingFetches(cache: Cache, now: int, id: string, outcome: Outcome)
    requires id !in cache || now - cache[id].timestamp >= 86400
    ensures Render(cache, now, id, outcome).fetched
  {
  }

  /**
   Line 40's strict comparison at the boundary: an entry is served from the
   cache one second before it is a day old, and fetched again once it is.
   */
  lemma ExpiryBoundary(count: string, stamp: int, id: string, cache: Cache, outcome: Outcome)
    requires id in cache && cache[id] == Entry(count, stamp)
    ensures !Render(cache, stamp + 86399, id, outcome).fetched
    ensures Render(cache, stamp + 86399, id, outcome).output == count
    ensures Render(cache, stamp + 86400, id, outcome).fetched
  {
  }

  /**
   Lines 72-78: after a successful fetch the entry holds the new count stamped
   `now`, every other entry is as it was, and the new count is rendered.
   */
  lemma SuccessfulFetch(cache: Cache, now: int, id: string, count: string)
    requires id !in cache || !IsFresh(cache[id], now)
    ensures var r := Render(cache, now, id, Fetched(count));
      && r.output == count
      && id in r.cache && r.cache[id] == Entry(count, now)
      && r.cache - {id} == cache - {id}
  {
  }

  /** Lines 80-86: a failed fetch renders the old count, even an expired one, and changes nothing. */
  lemma FailedFetchWithPrior(cache: Cache, now: int, id: string, message: string)
    requires id in cache
    ensures var r := Render(cache, now, id, Failed(message));
      r.output == cache[id].count && r.cache == cache
  {
  }

  /** Lines 82 and 88: with nothing cached, a failed fetch renders the prefixed error message. */
  lemma FailedFetchWithoutPrior(cache: Cache, now: int, id: string, message: string)
    requires id !in cache
    ensures var r := Render(cache, now, id, Failed(message));
      r.output == FailurePrefix + message && r.cache == cache && r.fetched
  {
  }

  /**
   Lines 72-76 then 80-88: when saving raises after the count was recorded, the
   in-memory cache keeps the new entry while the call renders the fallback.
   */
  lemma UnsavedFetch(cache: Cache, now: int, id: string, count: string, message: string)
    requires id !in cache || !IsFresh(cache[id], now)
    ensures var r := Render(cache, now, id, Unsaved(count, message));
      && r.cache == cache[id := Entry(count, now)]
      && r.output == Fallback(cache, id, message)
  {
  }

  /**
   A recorded count is served again, whatever the next attempt would bring,
   by any rendering of the same article less than a day after it was recorded.
   */
  lemma RecordedCountServed(cache: Cache, now: int, later: int, id: string, outcome: Outcome, next: Outcome)
    requires outcome.Stores()
    requires later - now < 86400
    ensures var r := Render(cache, now, id, outcome);
      r.fetched ==> Render(r.cache, later, id, next) == Rendered(outcome.count, r.cache, false)
  {
  }

  /** What the HTTP request of line 57 produced. */
  datatype Response =
    | Page(doc: Doc)              // the page was fetched and parsed
    | RequestError(message: string)  // the request raised (timeout, HTTP error, ...)

  /**
   Lines 57-78 as one attempt: request, extract, format, record, save. The
   formatter (line 69) and the outcome of saving (line 76) are parameters.
   */
  function Attempt(response: Response, format: nat -> string, saveError: Option<string>): (o: Outcome)
    ensures o.Stores() <==> response.Page? && CitationCount(response.doc).Success?
    ensures o.Stores() ==> o.count == format(CitationCount(response.doc).value)
    ensures o.Unsaved? <==> o.Stores() && saveError.Some?
    ensures response.RequestError? ==> o == Failed(response.message)
    ensures response.Page? && CitationCount(response.doc).Failure? ==>
              o == Failed(CitationCount(response.doc).error)
    ensures o.Unsaved? ==> o.message == saveError.value
  {
    match response
    case RequestError(message) => Failed(message)
    case Page(doc) =>
      match CitationCount(doc)
      case Failure(message) => Failed(message)
      case Success(n) =>
        var count := format(n);
        match saveError
        case None => Fetched(count)
        case Some(message) => Unsaved(count, message)
  }

  /** The whole of `render` for one tag, with the fetch, formatter and file system abstracted. */
  function RenderTag(cache: Cache, now: int, id: string, response: Response,
                     format: nat -> string, saveError: Option<string>): (r: Rendered)
    ensures !r.fetched <==> id in cache && IsFresh(cache[id], now)
    ensures !r.fetched ==> r.output == cache[id].count && r.cache == cache
    ensures r.fetched && response.RequestError? ==>
              r.cache == cache && r.output == Fallback(cache, id, response.message)
    ensures r.fetched && response.Page? && CitationCount(response.doc).Failure? ==>
              r.cache == cache && r.output == Fallback(cache, id, NilMatchMessage)
    ensures r.fetched && response.Page? && CitationCount(response.doc).Success? ==>
              r.cache == cache[id := Entry(format(CitationCount(response.doc).value), now)]
    ensures r.fetched && response.Page? && CitationCount(response.doc).Success? ==>
              r.output == if saveError.None? then format(CitationCount(response.doc).value)
                          else Fallback(cache, id, saveError.value)
  {
    Render(cache, now, id, Attempt(response, format, saveError))
  }

  /**
   A page without any description element is read as zero citations: the
   formatted zero is rendered and recorded.
   */
  lemma NoDescriptionIsZero(cache: Cache, now: int, id: string, format: nat -> string)
    requires id !in cache || !IsFresh(cache[id], now)
    ensures var r := RenderTag(cache, now, id, Page(Doc(None, None)), format, None);
      r.output == format(0) && r.cache[id] == Entry(format(0), now)
  {
  }

  /**
   A description element without `content` makes the attempt fail; the
   cached count or the prefixed error message is rendered.
   */
  lemma MissingContentFails(cache: Cache, now: int, id: string, og: Option<Meta>,
                            format: nat -> string, saveError: Option<string>)
    requires id !in cache || !IsFresh(cache[id], now)
    ensures var r := RenderTag(cache, now, id, Page(Doc(Some(Meta(None)), og)), format, saveError);
      r.output == Fallback(cache, id, NilMatchMessage) && r.cache == cache
  {
  }

  /** A sequence of renderings within one build (`@@citations` carried from call to call). */
  datatype Request = Request(now: int, id: string, outcome: Outcome)

  /** The rendered strings, which calls fetched, and the cache at the end. */
  datatype Run = Run(outputs: seq<string>, fetched: seq<bool>, cache: Cache)

  function RenderAll(cache: Cache, requests: seq<Request>): (run: Run)
    ensures |run.outputs| == |requests| && |run.fetched| == |requests|
    ensures cache.Keys <= run.cache.Keys
    decreases |requests|
  {
    if requests == [] then Run([], [], cache)
    else
      var q := requests[0];
      var r := Render(cache, q.now, q.id, q.outcome);
      var rest := RenderAll(r.cache, requests[1..]);
      Run([r.output] + rest.outputs, [r.fetched] + rest.fetched, rest.cache)
  }

  /** Line 33: the cache is loaded once, when the first tag renders, then shared by every call. */
  function Build(file: CacheFile, requests: seq<Request>): (run: Run)
    ensures |run.outputs| == |requests|
    ensures LoadCache(file).Keys <= run.cache.Keys
  {
    RenderAll(LoadCache(file), requests)
  }

  /** An article no request names keeps its entry, or its absence, through the whole run. */
  lemma {:induction false} UnrequestedUnchanged(cache: Cache, requests: seq<Request>, k: string)
    requires forall i :: 0 <= i < |requests| ==> requests[i].id != k
    ensures var run := RenderAll(cache, requests);
      (k in run.cache <==> k in cache) && (k in cache ==> run.cache[k] == cache[k])
    decreases |requests|
  {
    if requests != [] {
      var q := requests[0];
      var r := Render(cache, q.now, q.id, q.outcome);
      UnrequestedUnchanged(r.cache, requests[1..], k);
    }
  }

  /** Every article in `ids` has an entry recorded at or after `start`. */
  predicate RecordedSince(cache: Cache, ids: set<string>, start: int) {
    forall k :: k in ids ==> k in cache && cache[k].timestamp >= start
  }

  /**
   Within one day starting at `start`, an article whose count was recorded at
   or after `start` is never fetched again.
   */
  lemma {:induction false} RecordedNotRefetched(cache: Cache, requests: seq<Request>, ids: set<string>, start: int)
    requires RecordedSince(cache, ids, start)
    requires forall i :: 0 <= i < |requests| ==> start <= requests[i].now < start + ExpirationSeconds
    ensures var run := RenderAll(cache, requests);
      forall j :: 0 <= j < |requests| && requests[j].id in ids ==> !run.fetched[j]
    decreases |requests|
  {
    if requests != [] {
      var q := requests[0];
      var r := Render(cache, q.now, q.id, q.outcome);
      var ids' := if r.fetched && q.outcome.Stores() then ids + {q.id} else ids;
      assert RecordedSince(r.cache, ids', start);
      RecordedNotRefetched(r.cache, requests[1..], ids', start);
      var run := RenderAll(cache, requests);
      var rest := RenderAll(r.cache, requests[1..]);
      forall j | 0 <= j < |requests| && requests[j].id in ids
        ensures !run.fetched[j]
      {
        if j > 0 {
          assert requests[j] == requests[1..][j - 1];
          assert run.fetched[j] == rest.fetched[j - 1];
        }
      }
    }
  }

  /**
   Within one day, each article is fetched successfully at most once: once an
   attempt has recorded a count, later renderings of that article in the same
   day are served from the cache.
   */
  lemma {:induction false} AtMostOneRecordingFetch(cache: Cache, requests: seq<Request>, start: int)
    requires forall i :: 0 <= i < |requests| ==> start <= requests[i].now < start + ExpirationSeconds
    ensures var run := RenderAll(cache, requests);
      forall i, j :: (0 <= i < j < |requests| && requests[i].id == requests[j].id
                      && run.fetched[i] && requests[i].outcome.Stores()) ==> !run.fetched[j]
    decreases |requests|
  {
    if requests != [] {
      var q := requests[0];
      var r := Render(cache, q.now, q.id, q.outcome);
      var tail := requests[1..];
      var rest := RenderAll(r.cache, tail);
      var run := RenderAll(cache, requests);
      assert run.fetched == [r.fetched] + rest.fetched;
      AtMostOneRecordingFetch(r.cache, tail, start);
      if r.fetched && q.outcome.Stores() {
        assert RecordedSince(r.cache, {q.id}, start);
        RecordedNotRefetched(r.cache, tail, {q.id}, start);
      }
      forall i, j | 0 <= i < j < |requests| && requests[i].id == requests[j].id
          && run.fetched[i] && requests[i].outcome.Stores()
        ensures !run.fetched[j]
      {
        assert requests[j] == tail[j - 1] && run.fetched[j] == rest.fetched[j - 1];
        if i > 0 {
          assert requests[i] == tail[i - 1] && run.fetched[i] == rest.fetched[i - 1];
        }
      }
    }
  }
}

=== FILE: tag_params.dfy ===
/**
 The tag's argument string (`initialize`, lines 24-29): Ruby's
 `params.split(" ").map(&:strip)` and the first two resulting tokens, the names
 of the context variables holding the scholar id and the article id.
 */
module TagParams {
  import opened Wrappers

  /** ASCII whitespace, the separators of Ruby's awk-style `split(" ")`. */
  predicate IsSpace(c: char) {
    c == ' ' || c == '\t' || c == '\n' || c == '\U{B}' || c == '\U{C}' || c == '\r'
  }

  /** The characters `String#strip` removes at either end: whitespace and NUL. */
  predicate IsStrippable(c: char) {
    IsSpace(c) || c == '\0'
  }

  /** A field of the split: non-empty and free of whitespace. */
  predicate IsToken(t: string) {
    |t| > 0 && forall i :: 0 <= i < |t| ==> !IsSpace(t[i])
  }

  /** A token that `strip` leaves as it is: no NUL at either end. */
  predicate IsName(t: string) {
    IsToken(t) && t[0] != '\0' && t[|t| - 1] != '\0'
  }

  /** The length of the maximal whitespace-free run at the start of `s`. */
  function WordLength(s: string): (n: nat)
    requires s != [] && !IsSpace(s[0])
    ensures 1 <= n <= |s|
    ensures forall i :: 0 <= i < n ==> !IsSpace(s[i])
    ensures n == |s| || IsSpace(s[n])
    decreases |s|
  {
    if |s| == 1 || IsSpace(s[1]) then 1 else 1 + WordLength(s[1..])
  }

  /**
   `split(" ")`: the maximal whitespace-free runs of `s`, in order; leading,
   trailing and repeated whitespace produce no empty fields.
   */
  function Split(s: string): (tokens: seq<string>)
    ensures forall k :: 0 <= k < |tokens| ==> IsToken(tokens[k])
    ensures (forall i :: 0 <= i < |s| ==> IsSpace(s[i])) <==> tokens == []
    decreases |s|
  {
    if s == [] then []
    else if IsSpace(s[0]) then Split(s[1..])
    else
      var n := WordLength(s);
      [s[..n]] + Split(s[n..])
  }

  /** The tokens written back with one space between neighbours. */
  function Join(tokens: seq<string>): string
    decreases |tokens|
  {
    if tokens == [] then []
    else if |tokens| == 1 then tokens[0]
    else tokens[0] + " " + Join(tokens[1..])
  }

  /** Splitting undoes joining: the tokens come back one for one. */
  lemma {:induction false} SplitJoin(tokens: seq<string>)
    requires forall k :: 0 <= k < |tokens| ==> IsToken(tokens[k])
    ensures Split(Join(tokens)) == tokens
    decreases |tokens|
  {
    if tokens != [] {
      var t := tokens[0];
      var s := Join(tokens);
      if |tokens| == 1 {
        assert WordLength(s) == |t|;
        assert s[..|t|] == t && s[|t|..] == [];
      } else {
        var rest := Join(tokens[1..]);
        assert s == t + (" " + rest);
        assert s[|t|] == ' ';
        assert WordLength(s) == |t|;
        assert s[..|t|] == t;
        assert s[|t|..] == " " + rest;
        assert (" " + rest)[1..] == rest;
        SplitJoin(tokens[1..]);
      }
    }
  }

  /** Whitespace in front of the parameters is skipped. */
  lemma {:induction false} SplitLeadingSpace(ws: string, s: string)
    requires forall i :: 0 <= i < |ws| ==> IsSpace(ws[i])
    ensures Split(ws + s) == Split(s)
    decreases |ws|
  {
    if ws != [] {
      assert (ws + s)[1..] == ws[1..] + s;
      SplitLeadingSpace(ws[1..], s);
    } else {
      assert ws + s == s;
    }
  }

  /** `String#lstrip`: the suffix left after dropping leading whitespace and NUL. */
  function StripLeft(s: string): (r: string)
    ensures |r| <= |s| && r == s[|s| - |r|..]
    ensures forall i :: 0 <= i < |s| - |r| ==> IsStrippable(s[i])
    ensures r == [] || !IsStrippable(r[0])
    decreases |s|
  {
    if s != [] && IsStrippable(s[0]) then StripLeft(s[1..]) else s
  }

  /** `String#rstrip`: the prefix left after dropping trailing whitespace and NUL. */
  function StripRight(s: string): (r: string)
    ensures |r| <= |s| && r == s[..|r|]
    ensures forall i :: |r| <= i < |s| ==> IsStrippable(s[i])
    ensures r == [] || !IsStrippable(r[|r| - 1])
    decreases |s|
  {
    if s != [] && IsStrippable(s[|s| - 1]) then StripRight(s[..|s| - 1]) else s
  }

  /**
   `String#strip`: the characters between the leading and the trailing run of
   whitespace and NUL, so nothing strippable is left at either end and only an
   all-strippable string becomes empty.
   */
  function Strip(s: string): (r: string)
    ensures |r| <= |s|
    ensures r == [] || (!IsStrippable(r[0]) && !IsStrippable(r[|r| - 1]))
    ensures r == [] <==> forall i :: 0 <= i < |s| ==> IsStrippable(s[i])
    ensures var a := |s| - |StripLeft(s)|; a + |r| <= |s| && forall j :: 0 <= j < |r| ==> r[j] == s[a + j]
    ensures var a := |s| - |StripLeft(s)|; forall i :: a + |r| <= i < |s| ==> IsStrippable(s[i])
  {
    StripRight(StripLeft(s))
  }

  /** A string with nothing to strip at either end is left as it is. */
  lemma StripClean(s: string)
    requires s == [] || IsName(s)
    ensures Strip(s) == s
  {
  }

  /** The tag's two context-variable names; `nil` when the parameters have too few tokens. */
  datatype Params = Params(scholarVar: Option<string>, articleVar: Option<string>)

  /** `splitted[k]`: the k-th token, or `nil` past the end. */
  function At(tokens: seq<string>, k: nat): Option<string> {
    if k < |tokens| then Some(tokens[k]) else None
  }

  /** Lines 26-28: the first token names the scholar id variable, the second the article id variable. */
  function ParseParams(params: string): (p: Params)
    ensures p.scholarVar.Some? <==> |Split(params)| >= 1
    ensures p.articleVar.Some? <==> |Split(params)| >= 2
    ensures p.scholarVar.Some? ==> p.scholarVar.value == Strip(Split(params)[0])
    ensures p.articleVar.Some? ==> p.articleVar.value == Strip(Split(params)[1])
  {
    var splitted := seq(|Split(params)|, k requires 0 <= k < |Split(params)| => Strip(Split(params)[k]));
    Params(At(splitted, 0), At(splitted, 1))
  }

  /**
   A token followed by whitespace, or by nothing, is split off as one field;
   with `SplitLeadingSpace` and `Split("") == []` this fixes every field.
   */
  lemma SplitToken(t: string, s: string)
    requires IsToken(t)
    requires s == [] || IsSpace(s[0])
    ensures Split(t + s) == [t] + Split(s)
  {
    var x := t + s;
    assert forall i :: 0 <= i < |t| ==> x[i] == t[i];
    assert s != [] ==> x[|t|] == s[0];
    var n := WordLength(x);
    assert n == |t|;
    assert x[..n] == t && x[n..] == s;
    assert Split(x) == [x[..n]] + Split(x[n..]);
  }

  /**
   For parameters holding two names, separated by whitespace of any kind and
   length and with any whitespace or further text after them, the names are
   taken in order.
   */
  lemma ParseParamsNames(lead: string, scholar: string, gap: string, article: string, rest: string)
    requires forall i :: 0 <= i < |lead| ==> IsSpace(lead[i])
    requires |gap| > 0 && forall i :: 0 <= i < |gap| ==> IsSpace(gap[i])
    requires IsName(scholar) && IsName(article)
    requires rest == [] || IsSpace(rest[0])
    ensures ParseParams(lead + scholar + gap + article + rest) == Params(Some(scholar), Some(article))
  {
    var params := lead + scholar + gap + article + rest;
    assert params == lead + (scholar + (gap + (article + rest)));
    SplitLeadingSpace(lead, scholar + (gap + (article + rest)));
    SplitToken(scholar, gap + (article + rest));
    SplitLeadingSpace(gap, article + rest);
    SplitToken(article, rest);
    assert Split(params) == [scholar] + ([article] + Split(rest));
    ParamsOfSplit(params, scholar, article);
  }

  lemma ParamsOfSplit(params: string, scholar: string, article: string)
    requires |Split(params)| >= 2 && Split(params)[0] == scholar && Split(params)[1] == article
    requires IsName(scholar) && IsName(article)
    ensures ParseParams(params) == Params(Some(scholar), Some(article))
  {
    StripClean(scholar);
    StripClean(article);
  }

  /** Parameters with a single name, whatever whitespace surrounds it, leave the article variable `nil`. */
  lemma ParseParamsOneName(lead: string, scholar: string, trail: string)
    requires forall i :: 0 <= i < |lead| ==> IsSpace(lead[i])
    requires forall i :: 0 <= i < |trail| ==> IsSpace(trail[i])
    requires IsName(scholar)
    ensures ParseParams(lead + scholar + trail) == Params(Some(scholar), None)
  {
    var params := lead + scholar + trail;
    assert params == lead + (scholar + trail);
    SplitLeadingSpace(lead, scholar + trail);
    SplitToken(scholar, trail);
    assert Split(trail) == [];
    StripClean(scholar);
  }
}

=== FILE: wrappers.dfy ===
/** Option and Result, the two failure-carrying shapes the model needs. */
module Wrappers {

  /** A value that may be absent, as Ruby's `nil` for a missing element. */
  datatype Option<+T> = None | Some(value: T)

  /** The outcome of a step that may raise: a value, or the raised error's message. */
  datatype Result<+R, +E> = Success(value: R) | Failure(error: E)
}
